=== FILE: README.md ===
# isso-moderation core, modelled in Dafny

isso-moderation is a small Flask console for moderating the comments of an
isso comment server. An operator logs in with HTTP Basic credentials, filters
the comments with query-string arguments, and deletes the ones they select.
This project models the deterministic logic of `app.py` that sits between the
HTTP layer and SQLite, and proves properties of it:

- the text of the listing query (`print_comments`), including the
  `query[:-3]` trim, in a closed form;
- the classification of the query outcome into `1` (bad request), `2`
  (nothing to display), a list, or an exception that escapes the listing. The
  list is ordered newest first by a stable sort, and every `created` value is
  turned into a display string;
- `dict_factory`, which maps column names to row values;
- the `DELETE ... IN (?,...,?)` statement of `delete_comment` and its effect
  on the comments table;
- the request shaping done by the route handlers: search-argument filtering
  and lower-casing, all-or-nothing id parsing, and `check_auth`.

Query execution is a parameter `execute: string -> Exec`. Its result is
either `Raised` or the fetched column names and tuples. Whether SQLite runs
the bound DELETE is a parameter `accepts: (string, seq<int>) -> bool`. The date formatter
(`datetime.fromtimestamp(...).strftime(...)`) is a parameter
`fmt: int -> Option<string>`, which gives `None` where `fromtimestamp` raises.

Modules: `Wrappers` (Option), `Strings` (join, slice, count, ASCII lower,
subsequence), `Query` (query text), `Rows` (values and `dict_factory`),
`Sorting` (stable descending sort), `Lister` (`print_comments`), `Deletion`
(`delete_comment`), `Request` (handlers' argument and id processing).

Behaviour of the code that is easy to misread:

- The base query literal is split with a backslash-newline. Python keeps the
  eight spaces that indent the continuation, so nine spaces separate
  `threads.uri` from `FROM`. `Query.Base` has them.
- Values are interpolated into the query text verbatim. Field names are not
  checked against an allow-list, and values are not bound as parameters.
- `delete_comment` takes a list, not a set. Duplicates are harmless
  (`Deletion.RemoveDependsOnIdSet`).
- Rows with equal `created` keep the order in which they were fetched. They
  are not in an arbitrary order: `sorted(..., reverse=True)` is stable.

## Model

| member | source | states |
|---|---|---|
| `Request.SingleAccount` | app.py:16-20 | The console has one account. The pair `admin`/`secret` is accepted, and any two accepted pairs are the same pair. |
| `Rows.DictFactory` | app.py:42-48 | The dict's keys are exactly the described column names. Each name maps to the value at its last position in the description, so a later duplicate name wins. |
| `Query.BuildQuery` | app.py:77-87 | The append-then-trim construction equals the closed form. With no arguments (None or empty) it is the base join with no WHERE. With n >= 1 arguments it is base + " WHERE" + the clauses joined by " AND" + " COLLATE NOCASE", in dict order. |
| `Query.ClauseIsNullIffSentinel` | app.py:83-86 | A clause reads ` arg is null` if and only if its value is the sentinel `"none"`. Any other value gives ` arg = 'v'`. |
| `Query.TrimDropsFinalAnd` | app.py:84-87 | Cutting three characters from text ending in ` AND` and appending `COLLATE NOCASE` leaves exactly the text before ` AND`, followed by ` COLLATE NOCASE`. |
| `Strings.DropLast` | app.py:87 | `s[:-n]` keeps everything except the last n characters, and yields "" when s is shorter than n. |
| `Sorting.SortDescIsStable` | app.py:97 | The sort result is a permutation of the input with the same length. It is ordered by key non-increasing, and among equal keys it keeps the input order. |
| `Sorting.StableDescendingUnique` | app.py:97 | Two orderings that are both descending and that agree on the order within every key are equal. |
| `Sorting.SortDescIsTheStableOrder` | app.py:97 | The sort result is the one and only stable newest-first order of the fetched rows. |
| `Lister.Humanize` | app.py:98-100 | The conversion succeeds exactly when every row's timestamp converts; one failing timestamp raises and nothing is returned. On success every row's `created` becomes the formatted date of its timestamp, no other column changes, and the rows keep their count and order. |
| `Lister.FormattableReordered` | app.py:97-100 | Whether every timestamp converts does not depend on the order of the rows, so sorting before formatting changes nothing about the failure. |
| `Lister.Classify` | app.py:90-105 | It returns `1` exactly when execution raises (a short tuple in `dict_factory` counts, since that also happens inside the `try`). It returns `2` exactly when the fetch is empty. An exception escapes exactly when the fetch is non-empty and some row's timestamp does not convert (app.py:99 is outside the `try`). Otherwise it returns a non-empty list as long as the fetch: the rows in their unique stable newest-first order, with formatted dates. |
| `Lister.PrintComments` | app.py:66-105 | The result is the classification of executing the closed-form query text for the given search arguments. |
| `Deletion.PlaceholdersShape` | app.py:116-117 | `",".join(["?"] * n)` is empty for n = 0. Otherwise it has 2n-1 characters, `?` and `,` alternating and starting and ending with `?`. |
| `Deletion.PlaceholderCounts` | app.py:116-117 | The placeholder list has n question marks and n-1 commas (none when n = 0). |
| `Deletion.StatementBindsEveryId` | app.py:115-118 | The DELETE statement has exactly one `?` per id, so the id tuple binds completely. |
| `Deletion.RemoveKeepsExactlyUnlisted` | app.py:116-119 | After the delete, a row is present if and only if it was present and its id is not listed. Every remaining row keeps its multiplicity. |
| `Deletion.RemoveDistributes` | app.py:116-119 | Deleting from a concatenation deletes from each part. The surviving rows keep their relative order. |
| `Deletion.RemoveDependsOnIdSet` | app.py:115-118 | Two id lists with the same members delete the same rows, so duplicate ids are harmless. |
| `Deletion.RemoveNoIds` | app.py:115-118 | An empty id list leaves the table unchanged. |
| `Deletion.RemoveTwice` | app.py:116-119 | Two deletions in a row equal one deletion of both lists. In particular, repeating a delete changes nothing more. |
| `Deletion.DeleteComment` | app.py:108-121 | The delete goes through exactly when every id fits in a signed 64-bit integer and SQLite accepts the bound statement; otherwise it raises and the table is untouched. When it goes through it returns True. The parameters are the ids in order. The statement is `DELETE FROM comments WHERE id IN (` followed by the comma-separated placeholders and `)`, one `?` per parameter. The table keeps exactly the rows whose id is not listed, each surviving row as many times as before, and an empty list changes nothing. |
| `Request.FirstIndex` | app.py:141-143 | The position of a sent name's first pair: that pair carries the name. |
| `Request.FirstIndexIsFirst` | app.py:141-143 | No earlier pair carries the name, so `md[name]` reads the first value sent under it. |
| `Request.Keys` | app.py:141 | Iterating `request.args` yields every sent name exactly once, and names come in the order of their first pair. |
| `Request.KeysInSendingOrder` | app.py:141 | The listed names are a subsequence of the sent names, so iteration never reorders what was sent. |
| `Request.Shape` | app.py:141-143 | Given the names in order of first appearance, the loop stores the kept ones, each once and in that order, with their lower-cased first value. |
| `Request.SearchArgsOf` | app.py:139-143 | `search_args` holds exactly the sent names other than `submit` whose value is non-empty, each once and in order of first appearance, mapped to the lower-cased value. |
| `Strings.LowerIsNormalForm` | app.py:143 | A lowered value has no upper-case letter, keeps its length, and lowering it again changes nothing. |
| `Request.Moderation` | app.py:135-151 | The GET handler answers "Bad request" exactly when execution raises. It answers "Nothing to display" exactly when nothing is fetched. It answers with a server error exactly when the listing raises while converting a timestamp. Otherwise it renders the page with the listed rows. |
| `Request.ParseIds` | app.py:161-165 | The id list parses exactly when every submitted string is an integer of at most 4300 digits. It then has one entry per string, in order. |
| `Request.ParseShowRoundTrip` | app.py:163 | Every integer of at most 4300 digits, written out in decimal, is accepted by the `int()` model and parses back to itself. |
| `Request.ParseShowRoundTripInt64` | app.py:163 | In particular every id that fits in a signed 64-bit integer survives the round trip. |
| `Request.Delete` | app.py:156-169 | If any id fails to parse, the handler answers with the error message and the table is untouched. If all parse but one does not fit in 64 bits, or SQLite refuses the DELETE, the uncaught error gives a server error and the table is untouched. Otherwise it redirects to the listing, and the table keeps exactly the rows whose id was not submitted, each as many times as before. |

## Left out

- Flask routing, `redirect`/`url_for` (kept only as the endpoint name),
  `render_template`, the 401 `Response` and the `requires_auth` decorator
  (app.py:22-36, 127-130). These are framework glue.
- The POST branch of `moderation`, where `search_args` is never bound
  (app.py:139-145). Only the GET branch is modelled.
- `connect_to_db`, the file-existence check and the `sys.exit` paths
  (app.py:51-63), and connection close/commit as resources. These are I/O and
  process termination.
- `print(query)` (app.py:89). It only logs.
- SQLite semantics of `JOIN`, `COLLATE NOCASE` and `IN`. Execution is an
  opaque outcome, and delete is a row filter on a sequence of records. Which
  comparison the trailing `COLLATE NOCASE` binds to is not modelled.
- Injection safety. Values are interpolated verbatim, as app.py does.
- `datetime.fromtimestamp(...).strftime("%Y-%m-%d %H:%M")` is the parameter
  `fmt`, because it depends on the local time zone and the platform's
  `time_t` range. The model only shows that it is applied to every row's
  timestamp and that a failure of any one of them escapes uncaught.
- Lister.Classify: requires every fetched row to carry an integer `created`.
  `print_comments` sorts and formats outside its `try`, so a non-numeric value
  would escape as an uncaught exception that the model does not describe.
  `created` is modelled as an integer, not a float. Integer timestamps that
  `fromtimestamp` rejects are modelled, as the `Crashed` outcome.
- Strings.Lower: models `str.lower()` on ASCII letters only. Unicode case
  mapping is not modelled.
- Lister.PrintComments: requires every fetched row to carry an integer
  `created`, for the same reason as `Lister.Classify`.
- Request.Moderation: requires every fetched row to carry an integer
  `created`, for the same reason as `Lister.Classify`.
- Request.ParseIds: the 4300-digit limit is the default of
  `sys.get_int_max_str_digits()` in CPython. Interpreters without the limit
  (before 3.11, 3.10.7, 3.9.14, 3.8.14 or 3.7.14) convert any length and are
  not modelled.
- Request.ParseIds: the `int()` model accepts ASCII whitespace, an optional
  sign, and ASCII digits with single underscores. Non-ASCII digits and
  whitespace that Python also accepts are not modelled.
- Thread records are only read through the join, so they have no datatype of
  their own. The fetched rows carry their title and URI as ordinary columns.
- `Deletion.Comment` pairs the primary key with the row's columns in the same
  `Rows.Row` form the listing fetches. The delete only reads the key, so the
  columns are carried along and never inspected.
- Deletion.DeleteComment: why SQLite refuses a statement (its host-parameter
  limit, a locked or read-only database) is not modelled; `accepts` stands
  for the outcome.
- Request.Delete: with `debug=True` the server answers an uncaught exception
  with the debugger page rather than a plain internal server error. Both are
  the `ServerError` response here.

=== FILE: deletion.dfy ===
/**
 * `delete_comment` (app.py lines 108-121): a `DELETE ... IN (?,...,?)`
 * statement with one placeholder per id, and its effect on the comments
 * table seen as a sequence of records.
 */
module Deletion {
  import opened Wrappers
  import opened Strings
  import opened Rows

  /**
   * A stored row of the `comments` table: its primary key, the only column
   * the delete reads, and its other columns in the same form the listing
   * fetches them.
   */
  datatype Comment = Comment(id: int, columns: Row)

  /** The range of a SQLite INTEGER, which every bound parameter must fit. */
  const MinInt64: int := -0x8000_0000_0000_0000
  const MaxInt64: int := 0x7FFF_FFFF_FFFF_FFFF

  predicate AllFitInt64(ids: seq<int>)
  {
    forall i :: 0 <= i < |ids| ==> MinInt64 <= ids[i] <= MaxInt64
  }

  const DeletePrefix: string := "DELETE FROM comments WHERE id IN ("

  /** `",".join(["?"] * n)`. */
  function Placeholders(n: nat): string
  {
    Join(seq(n, _ => "?"), ",")
  }

  /** The statement text for a given id list. */
  function DeleteStatement(ids: seq<int>): string
  {
    DeletePrefix + Placeholders(|ids|) + ")"
  }

  /** Placeholders alternate `?` and `,`, starting and ending with `?`. */
  lemma {:induction false} PlaceholdersShape(n: nat)
    ensures n == 0 ==> Placeholders(n) == ""
    ensures n > 0 ==> |Placeholders(n)| == 2 * n - 1
    ensures forall i :: 0 <= i < |Placeholders(n)| ==> Placeholders(n)[i] == (if i % 2 == 0 then '?' else ',')
  {
    if n > 1 {
      PlaceholdersShape(n - 1);
      assert seq(n, _ => "?")[..n - 1] == seq(n - 1, _ => "?");
      assert Placeholders(n) == Placeholders(n - 1) + "," + "?";
    }
  }

  /** `n` question marks separated by `n - 1` commas. */
  lemma {:induction false} PlaceholderCounts(n: nat)
    ensures Count(Placeholders(n), '?') == n
    ensures Count(Placeholders(n), ',') == if n == 0 then 0 else n - 1
  {
    if n > 1 {
      PlaceholderCounts(n - 1);
      assert seq(n, _ => "?")[..n - 1] == seq(n - 1, _ => "?");
      assert Placeholders(n) == Placeholders(n - 1) + ",?";
      CountConcat(Placeholders(n - 1), ",?", '?');
      CountConcat(Placeholders(n - 1), ",?", ',');
      assert ",?"[..1] == ",";
    } else if n == 1 {
      assert Placeholders(1) == "?";
    }
  }

  /** The statement carries exactly one `?` per id, so every id is bound. */
  lemma StatementBindsEveryId(ids: seq<int>)
    ensures Count(DeleteStatement(ids), '?') == |ids|
  {
    PlaceholderCounts(|ids|);
    CountConcat(DeletePrefix, Placeholders(|ids|), '?');
    CountConcat(DeletePrefix + Placeholders(|ids|), ")", '?');
    PrefixHasNoPlaceholder();
  }

  lemma PrefixHasNoPlaceholder()
    ensures Count(DeletePrefix, '?') == 0
  {
    CountAbsent(DeletePrefix, '?');
  }

  /** The effect of `DELETE FROM comments WHERE id IN (ids)` on the table, row by row. */
  function Remove(table: seq<Comment>, ids: seq<int>): seq<Comment>
  {
    if |table| == 0 then []
    else
      var rest := Remove(table[..|table| - 1], ids);
      var last := table[|table| - 1];
      if last.id in ids then rest else rest + [last]
  }

  /**
   * After the delete, every row whose id is listed is gone and every other
   * row is still there, exactly as often as before.
   */
  lemma {:induction false} RemoveKeepsExactlyUnlisted(table: seq<Comment>, ids: seq<int>)
    ensures forall c :: c in Remove(table, ids) <==> c in table && c.id !in ids
    ensures forall c :: multiset(Remove(table, ids))[c] == if c.id in ids then 0 else multiset(table)[c]
    decreases |table|
  {
    if |table| > 0 {
      var init := table[..|table| - 1];
      var last := table[|table| - 1];
      RemoveKeepsExactlyUnlisted(init, ids);
      assert table == init + [last];
      assert multiset(table) == multiset(init) + multiset{last};
      if last.id !in ids {
        assert multiset(Remove(table, ids)) == multiset(Remove(init, ids)) + multiset{last};
      }
    }
  }

  /** Deleting from a concatenation deletes from each part in place: order is preserved. */
  lemma {:induction false} RemoveDistributes(a: seq<Comment>, b: seq<Comment>, ids: seq<int>)
    ensures Remove(a + b, ids) == Remove(a, ids) + Remove(b, ids)
    decreases |b|
  {
    if |b| == 0 {
      assert a + b == a;
    } else {
      var n := |b| - 1;
      var ab := a + b;
      assert ab[..|ab| - 1] == a + b[..n];
      assert ab[|ab| - 1] == b[n];
      RemoveDistributes(a, b[..n], ids);
      if b[n].id in ids {
        assert Remove(ab, ids) == Remove(a + b[..n], ids);
        assert Remove(b, ids) == Remove(b[..n], ids);
      } else {
        assert Remove(ab, ids) == Remove(a + b[..n], ids) + [b[n]];
        assert Remove(b, ids) == Remove(b[..n], ids) + [b[n]];
      }
    }
  }

  /** Only the set of ids matters: duplicates and their order are harmless. */
  lemma {:induction false} RemoveDependsOnIdSet(table: seq<Comment>, ids1: seq<int>, ids2: seq<int>)
    requires forall x :: x in ids1 <==> x in ids2
    ensures Remove(table, ids1) == Remove(table, ids2)
    decreases |table|
  {
    if |table| > 0 {
      RemoveDependsOnIdSet(table[..|table| - 1], ids1, ids2);
    }
  }

  /** An empty id list deletes nothing. */
  lemma {:induction false} RemoveNoIds(table: seq<Comment>)
    ensures Remove(table, []) == table
    decreases |table|
  {
    if |table| > 0 {
      RemoveNoIds(table[..|table| - 1]);
      assert table == table[..|table| - 1] + [table[|table| - 1]];
    }
  }

  /** Two deletions in a row equal one deletion of both id lists; in particular deleting twice is deleting once. */
  lemma {:induction false} RemoveTwice(table: seq<Comment>, ids1: seq<int>, ids2: seq<int>)
    ensures Remove(Remove(table, ids1), ids2) == Remove(table, ids1 + ids2)
    decreases |table|
  {
    if |table| > 0 {
      var init := table[..|table| - 1];
      var last := table[|table| - 1];
      RemoveTwice(init, ids1, ids2);
      if last.id !in ids1 {
        RemoveDistributes(Remove(init, ids1), [last], ids2);
        assert Remove([last], ids2) == (if last.id in ids2 then [] else [last]);
      }
    }
  }

  /** What one call of `delete_comment` does and returns. */
  datatype DeleteEffect = DeleteEffect(statement: string, parameters: seq<int>, table: seq<Comment>, returned: bool)

  /**
   * `delete_comment(selected_comments)`: the ids are bound as a tuple to a
   * statement with as many placeholders, the matching rows are removed, and
   * the call returns `True`. SQLite accepts the empty list `IN ()`. An id
   * outside the 64-bit range makes the binding raise `OverflowError`, and
   * SQLite itself may refuse to run the statement (more placeholders than its
   * host-parameter limit, a locked or read-only database); `accepts` says
   * whether it runs. `delete_comment` catches neither failure, so the call
   * then yields `None` here and nothing is deleted.
   */
  function DeleteComment(table: seq<Comment>, ids: seq<int>, accepts: (string, seq<int>) -> bool): (e: Option<DeleteEffect>)
    ensures e.Some? <==> AllFitInt64(ids) && accepts(DeleteStatement(ids), ids)
    ensures e.Some? ==> e.value.returned
    ensures e.Some? ==> e.value.parameters == ids
    ensures e.Some? ==> e.value.statement == DeletePrefix + Placeholders(|ids|) + ")"
    ensures e.Some? ==> Count(e.value.statement, '?') == |e.value.parameters|
    ensures e.Some? ==> forall c :: c in e.value.table <==> c in table && c.id !in ids
    ensures e.Some? ==> forall c :: multiset(e.value.table)[c] == if c.id in ids then 0 else multiset(table)[c]
    ensures e.Some? && |ids| == 0 ==> e.value.table == table
  {
    var statement := DeleteStatement(ids);
    if !AllFitInt64(ids) || !accepts(statement, ids) then None
    else
      StatementBindsEveryId(ids);
      RemoveKeepsExactlyUnlisted(table, ids);
      RemoveNoIds(table);
      Some(DeleteEffect(statement, ids, Remove(table, ids), true))
  }
}

=== FILE: lister.dfy ===
/**
 * The comment listing of `print_comments` (app.py lines 66-105): run the
 * query, classify the outcome, order the rows newest first and make their
 * timestamps readable.
 */
module Lister {
  import opened Wrappers
  import opened Rows
  import opened Sorting
  import opened Query

  /**
   * What `cursor.execute(query)` and `cursor.fetchall()` give back: an
   * exception, or the column names of the cursor description with the fetched
   * tuples. SQLite itself is not modelled.
   */
  datatype Exec = Raised | Fetched(description: seq<string>, tuples: seq<seq<Value>>)

  /**
   * The results of `print_comments`: `1`, `2`, the list of rows, or an
   * exception that escapes it (raised after the `try` block).
   */
  datatype Listing = BadRequest | Nothing | Comments(rows: seq<Row>) | Crashed

  predicate HasIntCreated(r: Row)
  {
    "created" in r && r["created"].Int?
  }

  /**
   * The sort key `k['created']`. Rows that reach the sort all carry an integer
   * `created` (see `CreatedReadable`), so the fallback 0 is never consulted.
   */
  function CreatedOf(r: Row): int
  {
    if HasIntCreated(r) then r["created"].i else 0
  }

  /** Every tuple is long enough for `dict_factory` to read each described column. */
  predicate TuplesFit(description: seq<string>, tuples: seq<seq<Value>>)
  {
    forall t :: t in tuples ==> |description| <= |t|
  }

  /** The rows `fetchall()` returns once `dict_factory` is the row factory. */
  function Dicts(description: seq<string>, tuples: seq<seq<Value>>): seq<Row>
    requires TuplesFit(description, tuples)
  {
    seq(|tuples|, i requires 0 <= i < |tuples| => DictFactory(description, tuples[i]))
  }

  /**
   * The sort and the date conversion sit outside the `try` block, so the
   * handler relies on the `comments.created` column holding a number in every
   * fetched row; anything else would escape as an uncaught exception.
   */
  predicate CreatedReadable(exec: Exec)
  {
    exec.Fetched? && TuplesFit(exec.description, exec.tuples) ==>
      forall i :: 0 <= i < |exec.tuples| ==> HasIntCreated(DictFactory(exec.description, exec.tuples[i]))
  }

  /**
   * Every row's timestamp converts. `fmt` stands for
   * `datetime.fromtimestamp(...).strftime("%Y-%m-%d %H:%M")` and gives `None`
   * where `fromtimestamp` raises (a year past 9999, a value beyond the
   * platform's `time_t`).
   */
  predicate Formattable(rows: seq<Row>, fmt: int -> Option<string>)
  {
    forall i :: 0 <= i < |rows| ==> fmt(CreatedOf(rows[i])).Some?
  }

  /**
   * Lines 98-100: each row's `created` is replaced by its formatted date. The
   * first timestamp that does not convert raises, and nothing is returned.
   */
  function Humanize(rows: seq<Row>, fmt: int -> Option<string>): (out: Option<seq<Row>>)
    ensures out.Some? <==> Formattable(rows, fmt)
    ensures out.Some? ==> |out.value| == |rows|
    ensures out.Some? ==> forall i :: 0 <= i < |rows| ==>
      "created" in out.value[i] && out.value[i]["created"] == Text(fmt(CreatedOf(rows[i])).value)
    ensures out.Some? ==> forall i :: 0 <= i < |rows| ==> out.value[i].Keys == rows[i].Keys + {"created"}
    ensures out.Some? ==> forall i, k :: 0 <= i < |rows| && k in rows[i] && k != "created" ==>
      k in out.value[i] && out.value[i][k] == rows[i][k]
  {
    if Formattable(rows, fmt) then
      Some(seq(|rows|, i requires 0 <= i < |rows| => rows[i]["created" := Text(fmt(CreatedOf(rows[i])).value)]))
    else None
  }

  /** Whether every timestamp converts does not depend on the order of the rows. */
  lemma FormattableReordered(rows: seq<Row>, s: seq<Row>, fmt: int -> Option<string>)
    requires multiset(s) == multiset(rows)
    ensures Formattable(s, fmt) <==> Formattable(rows, fmt)
  {
    forall i | 0 <= i < |s|
      ensures s[i] in rows
    {
      assert s[i] in multiset(s);
    }
    forall i | 0 <= i < |rows|
      ensures rows[i] in s
    {
      assert rows[i] in multiset(rows);
    }
  }

  lemma HumanizedOrderIsUnique(rows: seq<Row>, fmt: int -> Option<string>)
    ensures |SortDesc(rows, CreatedOf)| == |rows|
    ensures forall s :: StableDescendingOf(rows, s, CreatedOf) ==> Humanize(s, fmt) == Humanize(SortDesc(rows, CreatedOf), fmt)
  {
    SortDescIsStable(rows, CreatedOf);
    SortDescIsTheStableOrder(rows, CreatedOf);
  }

  /**
   * Lines 90-105 after the query text is built: a raised execution (including
   * `dict_factory` failing on a short tuple inside the `try`) gives `1`, an
   * empty fetch gives `2`, a timestamp that does not convert escapes
   * uncaught, and otherwise the rows come back in the unique stable
   * newest-first order with formatted dates.
   */
  function Classify(exec: Exec, fmt: int -> Option<string>): (res: Listing)
    requires CreatedReadable(exec)
    ensures res.BadRequest? <==> exec.Raised? || !TuplesFit(exec.description, exec.tuples)
    ensures res.Nothing? <==> exec.Fetched? && |exec.tuples| == 0
    ensures res.Crashed? <==>
      exec.Fetched? && TuplesFit(exec.description, exec.tuples) && |exec.tuples| > 0 &&
      !Formattable(Dicts(exec.description, exec.tuples), fmt)
    ensures res.Comments? ==>
      exec.Fetched? && TuplesFit(exec.description, exec.tuples) && |res.rows| == |exec.tuples| > 0
    ensures res.Comments? ==>
      forall s :: StableDescendingOf(Dicts(exec.description, exec.tuples), s, CreatedOf) ==> Humanize(s, fmt) == Some(res.rows)
  {
    match exec
    case Raised => BadRequest
    case Fetched(description, tuples) =>
      if !TuplesFit(description, tuples) then BadRequest
      else if |tuples| == 0 then Nothing
      else
        var rows := Dicts(description, tuples);
        HumanizedOrderIsUnique(rows, fmt);
        SortDescIsStable(rows, CreatedOf);
        FormattableReordered(rows, SortDesc(rows, CreatedOf), fmt);
        match Humanize(SortDesc(rows, CreatedOf), fmt)
        case None => Crashed
        case Some(out) => Comments(out)
  }

  /**
   * `print_comments(search_args)`: build the query text, hand it to
   * `execute`, and classify what comes back.
   */
  method PrintComments(search: Option<SearchArgs>, execute: string -> Exec, fmt: int -> Option<string>)
    returns (res: Listing)
    requires CreatedReadable(execute(QueryText(search)))
    ensures res == Classify(execute(QueryText(search)), fmt)
  {
    var query := BuildQuery(search);
    res := Classify(execute(query), fmt);
  }
}

=== FILE: query.dfy ===
/**
 * The text of the listing query that `print_comments` hands to SQLite
 * (app.py lines 77-87): a fixed join, optionally followed by one clause per
 * search argument, joined with `AND` and closed by `COLLATE NOCASE`.
 */
module Query {
  import opened Wrappers
  import opened Strings

  /**
   * The join every listing starts from. app.py splits the literal with a
   * backslash-newline; Python keeps the eight spaces that indent the second
   * line, so nine spaces separate `threads.uri` from `FROM`.
   */
  const Base: string :=
    "SELECT comments.*, threads.title, threads.uri         FROM comments JOIN threads ON comments.tid = threads.id"

  /** The search value that asks for an empty (NULL) column. */
  const NullSentinel: string := "none"

  /** A Python dict of search arguments, as (column, value) pairs in insertion order. */
  type SearchArgs = seq<(string, string)>

  /** The clause one search argument contributes; the value is inserted verbatim. */
  function Clause(arg: string, value: string): string
  {
    if value != NullSentinel then " " + arg + " = '" + value + "'"
    else " " + arg + " is null"
  }

  function Clauses(args: SearchArgs): seq<string>
  {
    seq(|args|, i requires 0 <= i < |args| => Clause(args[i].0, args[i].1))
  }

  /** Python truthiness of the optional dict: present and non-empty. */
  predicate Filtered(search: Option<SearchArgs>)
  {
    search.Some? && |search.value| > 0
  }

  /**
   * The query in closed form: the base join alone, or the base join, ` WHERE`,
   * the clauses joined by ` AND`, and ` COLLATE NOCASE`.
   */
  function QueryText(search: Option<SearchArgs>): string
  {
    if Filtered(search) then Base + " WHERE" + Join(Clauses(search.value), " AND") + " COLLATE NOCASE"
    else Base
  }

  /** A clause reads `is null` exactly when its value is the sentinel. */
  lemma ClauseIsNullIffSentinel(arg: string, value: string)
    ensures Clause(arg, value) == " " + arg + " is null" <==> value == NullSentinel
  {
    if value != NullSentinel {
      var c := Clause(arg, value);
      assert c[|c| - 1] == '\'';
      assert (" " + arg + " is null")[|" " + arg + " is null"| - 1] == 'l';
    }
  }

  /** Cutting three characters off a text ending in ` AND` leaves exactly the space before `AND`. */
  lemma TrimDropsFinalAnd(prefix: string)
    ensures DropLast(prefix + " AND", 3) + "COLLATE NOCASE" == prefix + " COLLATE NOCASE"
  {
  }

  /** One more loop round: the text so far plus the next clause and ` AND`. */
  lemma AppendClause(args: SearchArgs, i: nat, query: string)
    requires i < |args|
    requires i == 0 ==> query == Base + " WHERE"
    requires i > 0 ==> query == Base + " WHERE" + Join(Clauses(args[..i]), " AND") + " AND"
    ensures query + Clause(args[i].0, args[i].1) + " AND"
            == Base + " WHERE" + Join(Clauses(args[..i + 1]), " AND") + " AND"
  {
    var cs := Clauses(args[..i + 1]);
    assert cs[..i] == Clauses(args[..i]);
    assert cs[i] == Clause(args[i].0, args[i].1);
  }

  /** The text the loop appends for one argument is its clause followed by ` AND`. */
  lemma ClauseThenAnd(arg: string, value: string)
    ensures value != NullSentinel ==> " " + arg + " = '" + value + "' AND" == Clause(arg, value) + " AND"
    ensures value == NullSentinel ==> " " + arg + " is null AND" == Clause(arg, value) + " AND"
  {
  }

  /**
   * `print_comments`' query construction as written: append each clause with a
   * trailing ` AND`, then cut the last three characters and add `COLLATE NOCASE`.
   */
  method BuildQuery(search: Option<SearchArgs>) returns (query: string)
    ensures query == QueryText(search)
    ensures !Filtered(search) ==> query == Base
  {
    query := Base;
    if search.Some? && |search.value| > 0 {
      var args := search.value;
      query := query + " WHERE";
      var i := 0;
      while i < |args|
        invariant 0 <= i <= |args|
        invariant i == 0 ==> query == Base + " WHERE"
        invariant i > 0 ==> query == Base + " WHERE" + Join(Clauses(args[..i]), " AND") + " AND"
      {
        var arg := args[i].0;
        var value := args[i].1;
        AppendClause(args, i, query);
        ClauseThenAnd(arg, value);
        if value != NullSentinel {
          query := query + (" " + arg + " = '" + value + "' AND");
        } else {
          query := query + (" " + arg + " is null AND");
        }
        i := i + 1;
      }
      assert args[..i] == args;
      TrimDropsFinalAnd(Base + " WHERE" + Join(Clauses(args), " AND"));
      query := DropLast(query, 3) + "COLLATE NOCASE";
    }
  }
}

=== FILE: request.dfy ===
/**
 * The request-side logic of the route handlers that feeds the core:
 * shaping the query-string arguments into search arguments (app.py lines
 * 139-143), the all-or-nothing id parsing of `delete` (lines 161-169), and
 * `check_auth` (line 20).
 */
module Request {
  import opened Wrappers
  import opened Strings
  import opened Rows
  import opened Query
  import opened Lister
  import opened Deletion

  /** `check_auth`: is this user name and password combination valid? */
  function CheckAuth(username: string, password: string): bool
  {
    username == "admin" && password == "secret"
  }

  /**
   * The console has a single account: some pair is accepted, and any two
   * accepted pairs are the same pair.
   */
  lemma SingleAccount(u1: string, p1: string, u2: string, p2: string)
    ensures CheckAuth("admin", "secret")
    ensures CheckAuth(u1, p1) && CheckAuth(u2, p2) ==> u1 == u2 && p1 == p2
  {
  }

  /**
   * `request.args`, a multi-dict: the (name, value) pairs of the query
   * string in the order they were sent; a name may repeat.
   */
  type MultiDict = seq<(string, string)>

  function Names(md: MultiDict): seq<string>
  {
    seq(|md|, i requires 0 <= i < |md| => md[i].0)
  }

  /** `name` is carried by some pair at position `from` or later. */
  predicate SentFrom(md: MultiDict, name: string, from: nat)
  {
    exists q :: from <= q < |md| && md[q].0 == name
  }

  /** The position of the first pair at or after `from` that carries `name`. */
  function FirstFrom(md: MultiDict, name: string, from: nat): (p: nat)
    requires SentFrom(md, name, from)
    ensures from <= p < |md| && md[p].0 == name
    decreases |md| - from
  {
    if md[from].0 == name then from else FirstFrom(md, name, from + 1)
  }

  /** The position of the first pair sent under `name`. */
  function FirstIndex(md: MultiDict, name: string): (p: nat)
    requires name in Names(md)
    ensures p < |md| && md[p].0 == name
  {
    SentSomewhere(md, name);
    FirstFrom(md, name, 0)
  }

  /** A name in `Names(md)` is carried by some pair. */
  lemma SentSomewhere(md: MultiDict, name: string)
    requires name in Names(md)
    ensures SentFrom(md, name, 0)
  {
    var q :| 0 <= q < |Names(md)| && Names(md)[q] == name;
    assert md[q].0 == name;
  }

  /** No pair between `from` and the one `FirstFrom` finds carries `name`. */
  lemma {:induction false} FirstFromIsFirst(md: MultiDict, name: string, from: nat)
    requires SentFrom(md, name, from)
    ensures forall q :: from <= q < FirstFrom(md, name, from) ==> md[q].0 != name
    decreases |md| - from
  {
    if md[from].0 != name {
      FirstFromIsFirst(md, name, from + 1);
    }
  }

  /** No pair before `FirstIndex(md, name)` carries `name`. */
  lemma FirstIndexIsFirst(md: MultiDict, name: string)
    requires name in Names(md)
    ensures name !in Names(md)[..FirstIndex(md, name)]
  {
    SentSomewhere(md, name);
    FirstFromIsFirst(md, name, 0);
  }

  /** Cutting pairs off the end does not move a first position that stays. */
  lemma {:induction false} FirstFromPrefix(md: MultiDict, m: nat, name: string, from: nat)
    requires m <= |md| && SentFrom(md[..m], name, from)
    ensures SentFrom(md, name, from)
    ensures FirstFrom(md[..m], name, from) == FirstFrom(md, name, from)
    decreases m - from
  {
    var q :| from <= q < m && md[..m][q].0 == name;
    assert md[q].0 == name;
    if md[from].0 != name {
      assert md[..m][from] == md[from];
      FirstFromPrefix(md, m, name, from + 1);
    }
  }

  /**
   * `ks` lists the names sent in `md`: each exactly once, ordered by their
   * first pair.
   */
  ghost predicate KeysOf(md: MultiDict, ks: seq<string>)
  {
    && (forall k :: k in ks <==> k in Names(md))
    && (forall i :: 0 <= i < |ks| ==> ks[i] in Names(md))
    && (forall i, j :: 0 <= i < j < |ks| ==> ks[i] != ks[j])
    && (forall i, j :: 0 <= i < j < |ks| ==> FirstIndex(md, ks[i]) < FirstIndex(md, ks[j]))
  }

  /** Iterating the multi-dict: each name once, in order of first appearance. */
  function Keys(md: MultiDict): (ks: seq<string>)
    ensures forall k :: k in ks <==> k in Names(md)
    ensures forall i :: 0 <= i < |ks| ==> ks[i] in Names(md)
    ensures forall i, j :: 0 <= i < j < |ks| ==> ks[i] != ks[j]
    ensures forall i, j :: 0 <= i < j < |ks| ==> FirstIndex(md, ks[i]) < FirstIndex(md, ks[j])
  {
    if |md| == 0 then []
    else
      var earlier := Keys(md[..|md| - 1]);
      var k := md[|md| - 1].0;
      if k in earlier then
        KeysStepSeen(md, earlier);
        earlier
      else
        KeysStepNew(md, earlier);
        earlier + [k]
  }

  /** A new last pair moves no first position and is its own name's first pair if new. */
  lemma FirstIndexExtends(md: MultiDict)
    requires |md| > 0
    ensures forall x :: x in Names(md[..|md| - 1]) ==> x in Names(md) && FirstIndex(md, x) == FirstIndex(md[..|md| - 1], x)
    ensures md[|md| - 1].0 in Names(md)
    ensures md[|md| - 1].0 !in Names(md[..|md| - 1]) ==> FirstIndex(md, md[|md| - 1].0) == |md| - 1
  {
    var n := |md| - 1;
    var init := md[..n];
    NamesSnoc(md);
    forall x | x in Names(init)
      ensures FirstIndex(md, x) == FirstIndex(init, x)
    {
      SentSomewhere(init, x);
      FirstFromPrefix(md, n, x, 0);
    }
    forall q | 0 <= q < n
      ensures md[q].0 == Names(init)[q]
    {
    }
  }

  /** The names of a multi-dict with one more pair at the end. */
  lemma NamesSnoc(md: MultiDict)
    requires |md| > 0
    ensures Names(md) == Names(md[..|md| - 1]) + [md[|md| - 1].0]
  {
  }

  /** Iterating the multi-dict lists the names as a subsequence of the sent pairs. */
  lemma {:induction false} KeysInSendingOrder(md: MultiDict)
    ensures Subsequence(Keys(md), Names(md))
    decreases |md|
  {
    if |md| > 0 {
      var init := md[..|md| - 1];
      var earlier := Keys(init);
      var k := md[|md| - 1].0;
      KeysInSendingOrder(init);
      NamesSnoc(md);
      SubsequenceStep(earlier, Names(init), k, Keys(md), Names(md));
    }
  }

  /** The last pair repeats a name already listed: the list stays as it is. */
  lemma KeysStepSeen(md: MultiDict, earlier: seq<string>)
    requires |md| > 0
    requires KeysOf(md[..|md| - 1], earlier)
    requires md[|md| - 1].0 in earlier
    ensures KeysOf(md, earlier)
  {
    FirstIndexExtends(md);
    NamesSnoc(md);
  }

  /** The last pair brings a new name: it goes to the end of the list. */
  lemma KeysStepNew(md: MultiDict, earlier: seq<string>)
    requires |md| > 0
    requires KeysOf(md[..|md| - 1], earlier)
    requires md[|md| - 1].0 !in earlier
    ensures KeysOf(md, earlier + [md[|md| - 1].0])
  {
    var ks := earlier + [md[|md| - 1].0];
    FirstIndexExtends(md);
    NamesSnoc(md);
    forall i, j | 0 <= i < j < |ks|
      ensures FirstIndex(md, ks[i]) < FirstIndex(md, ks[j])
    {
      assert ks[i] == earlier[i];
    }
  }

  /** `md[name]`: the first value sent under `name`. */
  function First(md: MultiDict, name: string): string
    requires name in Names(md)
  {
    md[FirstIndex(md, name)].1
  }

  /** An argument the handler keeps: a sent name other than `submit` whose first value is non-empty. */
  predicate Kept(md: MultiDict, name: string)
  {
    name in Names(md) && First(md, name) != "" && name != "submit"
  }

  function ArgNames(search: SearchArgs): seq<string>
  {
    seq(|search|, i requires 0 <= i < |search| => search[i].0)
  }

  /** The item the handler stores for a kept name. */
  function Entry(md: MultiDict, name: string): (string, string)
    requires name in Names(md)
  {
    (name, Lower(First(md, name)))
  }

  /**
   * `search` is what lines 141-143 build from the names `keys`: the kept
   * names, each once and in order of first appearance, with their
   * lower-cased first value.
   */
  ghost predicate ShapedFrom(md: MultiDict, keys: seq<string>, search: SearchArgs)
  {
    && (forall k :: k in ArgNames(search) <==> k in keys && Kept(md, k))
    && (forall i :: 0 <= i < |search| ==> search[i].0 in Names(md) && search[i] == Entry(md, search[i].0))
    && (forall i, j :: 0 <= i < j < |search| ==> search[i].0 != search[j].0)
    && (forall i, j :: 0 <= i < j < |search| ==> FirstIndex(md, search[i].0) < FirstIndex(md, search[j].0))
  }

  /** The loop of lines 141-143 over the names `keys`, taken in order. */
  function Shape(md: MultiDict, keys: seq<string>): (search: SearchArgs)
    requires forall k :: k in keys ==> k in Names(md)
    requires forall i, j :: 0 <= i < j < |keys| ==> keys[i] != keys[j]
    requires forall i, j :: 0 <= i < j < |keys| ==> FirstIndex(md, keys[i]) < FirstIndex(md, keys[j])
    ensures ShapedFrom(md, keys, search)
  {
    if |keys| == 0 then []
    else
      var earlier := Shape(md, keys[..|keys| - 1]);
      ShapeStep(md, keys, earlier);
      var k := keys[|keys| - 1];
      if Kept(md, k) then earlier + [Entry(md, k)] else earlier
  }

  /** One round of the loop: the last name is stored if it is kept. */
  lemma ShapeStep(md: MultiDict, keys: seq<string>, earlier: SearchArgs)
    requires |keys| > 0
    requires forall k :: k in keys ==> k in Names(md)
    requires forall i, j :: 0 <= i < j < |keys| ==> keys[i] != keys[j]
    requires forall i, j :: 0 <= i < j < |keys| ==> FirstIndex(md, keys[i]) < FirstIndex(md, keys[j])
    requires ShapedFrom(md, keys[..|keys| - 1], earlier)
    ensures var k := keys[|keys| - 1];
      ShapedFrom(md, keys, if Kept(md, k) then earlier + [Entry(md, k)] else earlier)
  {
    var init := keys[..|keys| - 1];
    var k := keys[|keys| - 1];
    assert keys == init + [k];
    if Kept(md, k) {
      BeforeLast(md, keys);
      ShapeStepKept(md, init, k, earlier);
    } else {
      ShapeStepSkipped(md, init, k, earlier);
    }
  }

  lemma ShapeStepSkipped(md: MultiDict, init: seq<string>, k: string, earlier: SearchArgs)
    requires !Kept(md, k)
    requires ShapedFrom(md, init, earlier)
    ensures ShapedFrom(md, init + [k], earlier)
  {
    forall n
      ensures n in ArgNames(earlier) <==> n in init + [k] && Kept(md, n)
    {
    }
  }

  /** Every name but the last comes first earlier than the last one. */
  lemma BeforeLast(md: MultiDict, keys: seq<string>)
    requires |keys| > 0
    requires forall k :: k in keys ==> k in Names(md)
    requires forall i, j :: 0 <= i < j < |keys| ==> FirstIndex(md, keys[i]) < FirstIndex(md, keys[j])
    ensures forall x :: x in keys[..|keys| - 1] ==> FirstIndex(md, x) < FirstIndex(md, keys[|keys| - 1])
  {
    forall x | x in keys[..|keys| - 1]
      ensures FirstIndex(md, x) < FirstIndex(md, keys[|keys| - 1])
    {
      var p :| 0 <= p < |keys| - 1 && keys[..|keys| - 1][p] == x;
      assert keys[p] == x;
    }
  }

  lemma ShapeStepKept(md: MultiDict, init: seq<string>, k: string, earlier: SearchArgs)
    requires k in Names(md) && k !in init && Kept(md, k)
    requires forall x :: x in init ==> x in Names(md) && FirstIndex(md, x) < FirstIndex(md, k)
    requires ShapedFrom(md, init, earlier)
    ensures ShapedFrom(md, init + [k], earlier + [Entry(md, k)])
  {
    var keys := init + [k];
    var search := earlier + [Entry(md, k)];
    var names := ArgNames(search);
    assert names == ArgNames(earlier) + [k];
    forall n
      ensures n in names <==> n in keys && Kept(md, n)
    {
    }
    forall i | 0 <= i < |search|
      ensures search[i].0 in Names(md) && search[i] == Entry(md, search[i].0)
    {
      if i < |earlier| {
        assert search[i] == earlier[i];
      }
    }
    forall i, j | 0 <= i < j < |search|
      ensures search[i].0 != search[j].0
      ensures FirstIndex(md, search[i].0) < FirstIndex(md, search[j].0)
    {
      if j < |earlier| {
        assert search[i] == earlier[i] && search[j] == earlier[j];
      } else {
        assert search[i] == earlier[i];
        assert ArgNames(earlier)[i] == earlier[i].0;
        assert search[i].0 in init;
      }
    }
  }

  /**
   * `search_args` as the GET branch of `moderation` builds it: exactly the
   * sent names with a non-empty value, other than `submit`, each once, mapped
   * to its lower-cased first value, in order of first appearance.
   */
  function SearchArgsOf(md: MultiDict): (search: SearchArgs)
    ensures forall k :: k in ArgNames(search) <==> Kept(md, k)
    ensures forall i :: 0 <= i < |search| ==>
      search[i].0 in Names(md) && search[i].1 == Lower(First(md, search[i].0))
    ensures forall i, j :: 0 <= i < j < |search| ==> search[i].0 != search[j].0
    ensures forall i, j :: 0 <= i < j < |search| ==> FirstIndex(md, search[i].0) < FirstIndex(md, search[j].0)
  {
    Shape(md, Keys(md))
  }

  /** What a handler gives back to Flask. */
  datatype Response =
    | Body(text: string)
    | Page(comments: seq<Row>)
    | Redirect(endpoint: string)
      /** An exception no handler catches: Flask answers with an internal server error. */
    | ServerError

  /** Lines 146-151: the listing outcome as a response. */
  function View(listing: Listing): (response: Response)
  {
    match listing
    case BadRequest => Body("Bad request")
    case Nothing => Body("Nothing to display")
    case Comments(rows) => Page(rows)
    case Crashed => ServerError
  }

  /**
   * The GET branch of `moderation`: shape the arguments, list the comments,
   * and answer with one of the two messages, the rendered page, or the
   * server error of an exception that escapes the listing.
   */
  method Moderation(args: MultiDict, execute: string -> Exec, fmt: int -> Option<string>) returns (response: Response)
    requires CreatedReadable(execute(QueryText(Some(SearchArgsOf(args)))))
    ensures var listing := Classify(execute(QueryText(Some(SearchArgsOf(args)))), fmt);
      && (response == Body("Bad request") <==> listing.BadRequest?)
      && (response == Body("Nothing to display") <==> listing.Nothing?)
      && (response.Page? <==> listing.Comments?)
      && (listing.Comments? ==> response.comments == listing.rows)
      && (response == ServerError <==> listing.Crashed?)
  {
    var search := SearchArgsOf(args);
    var comments := PrintComments(Some(search), execute, fmt);
    response := View(comments);
  }

  /** ASCII whitespace as Python's `str.isspace` sees it. */
  predicate IsSpace(c: char)
  {
    c == ' ' || '\t' <= c <= '\r' || '\U{1C}' <= c <= '\U{1F}'
  }

  predicate IsDigit(c: char)
  {
    '0' <= c <= '9'
  }

  function TrimStart(s: string): (r: string)
    ensures |r| <= |s|
  {
    if |s| > 0 && IsSpace(s[0]) then TrimStart(s[1..]) else s
  }

  function TrimEnd(s: string): (r: string)
    ensures |r| <= |s|
  {
    if |s| > 0 && IsSpace(s[|s| - 1]) then TrimEnd(s[..|s| - 1]) else s
  }

  /**
   * The digits `int()` accepts after an optional sign: at least one digit,
   * single underscores allowed between digits.
   */
  predicate IsDigitRun(s: string)
  {
    |s| > 0 && IsDigit(s[0]) &&
    forall i :: 0 <= i < |s| ==> IsDigit(s[i]) || (s[i] == '_' && i + 1 < |s| && IsDigit(s[i + 1]))
  }

  /** The decimal value of a digit run, underscores skipped. */
  function DigitsValue(s: string): nat
  {
    if |s| == 0 then 0
    else if IsDigit(s[|s| - 1]) then DigitsValue(s[..|s| - 1]) * 10 + (s[|s| - 1] as int - '0' as int)
    else DigitsValue(s[..|s| - 1])
  }

  /**
   * The most digits `int()` converts from a decimal string before raising
   * `ValueError` (the interpreter's default `sys.get_int_max_str_digits()`).
   */
  const MaxStrDigits: nat := 4300

  /** How many digits `s` holds; underscores and signs do not count. */
  function DigitCount(s: string): (n: nat)
    ensures n <= |s|
  {
    if |s| == 0 then 0
    else DigitCount(s[..|s| - 1]) + (if IsDigit(s[|s| - 1]) then 1 else 0)
  }

  /** A digit run holding no more digits than the interpreter converts. */
  predicate Convertible(s: string)
  {
    IsDigitRun(s) && DigitCount(s) <= MaxStrDigits
  }

  /** `int(x)` for a form string `x`: `None` where Python raises `ValueError`. */
  function ParseInt(x: string): Option<int>
  {
    var t := TrimEnd(TrimStart(x));
    if |t| > 0 && (t[0] == '-' || t[0] == '+') then
      if Convertible(t[1..]) then
        var magnitude: int := DigitsValue(t[1..]);
        Some(if t[0] == '-' then -magnitude else magnitude)
      else None
    else if Convertible(t) then Some(DigitsValue(t))
    else None
  }

  /** The decimal text of a natural number, most significant digit first. */
  function Digits(n: nat): (s: string)
    ensures |s| > 0
    ensures forall i :: 0 <= i < |s| ==> IsDigit(s[i])
  {
    if n < 10 then [('0' as int + n) as char]
    else Digits(n / 10) + [('0' as int + n % 10) as char]
  }

  /** `str(n)`, the way an id reaches the form. */
  function Show(n: int): string
  {
    if n < 0 then "-" + Digits(-n) else Digits(n)
  }

  lemma {:induction false} DigitsValueOfDigits(n: nat)
    ensures DigitsValue(Digits(n)) == n
    decreases n
  {
    if n >= 10 {
      DigitsValueOfDigits(n / 10);
      var d := Digits(n);
      assert d[..|d| - 1] == Digits(n / 10);
    }
  }

  lemma {:induction false} DigitCountOfDigits(s: string)
    requires forall i :: 0 <= i < |s| ==> IsDigit(s[i])
    ensures DigitCount(s) == |s|
  {
    if |s| > 0 {
      DigitCountOfDigits(s[..|s| - 1]);
    }
  }

  function Pow10(k: nat): (p: nat)
    ensures p > 0
  {
    if k == 0 then 1 else 10 * Pow10(k - 1)
  }

  /** A number below `10^k` takes at most `k` digits. */
  lemma {:induction false} DigitsLength(n: nat, k: nat)
    requires 0 < k && n < Pow10(k)
    ensures |Digits(n)| <= k
    decreases k
  {
    if n >= 10 {
      assert k > 1;
      DigitsLength(n / 10, k - 1);
    }
  }

  /**
   * Every integer whose decimal form the interpreter converts parses back
   * to itself.
   */
  lemma ParseShowRoundTrip(n: int)
    requires |Digits(if n < 0 then -n else n)| <= MaxStrDigits
    ensures ParseInt(Show(n)) == Some(n)
  {
    var s := Show(n);
    var d := if n < 0 then Digits(-n) else Digits(n);
    DigitsValueOfDigits(if n < 0 then -n else n);
    DigitCountOfDigits(d);
    assert IsDigitRun(d);
    assert !IsSpace(s[0]);
    assert TrimStart(s) == s;
    assert !IsSpace(s[|s| - 1]);
    assert TrimEnd(s) == s;
    if n < 0 {
      assert s[1..] == d;
    }
  }

  /**
   * Line 163: `[int(x) for x in selected_comments]`. The first string that is
   * not an integer makes the whole list fail.
   */
  function ParseIds(form: seq<string>): (ids: Option<seq<int>>)
    ensures ids.Some? <==> forall i :: 0 <= i < |form| ==> ParseInt(form[i]).Some?
    ensures ids.Some? ==> |ids.value| == |form|
    ensures ids.Some? ==> forall i :: 0 <= i < |form| ==> ParseInt(form[i]) == Some(ids.value[i])
  {
    if |form| == 0 then Some([])
    else
      match ParseInt(form[0])
      case None => None
      case Some(id) =>
        match ParseIds(form[1..])
        case None => None
        case Some(rest) =>
          assert forall i :: 1 <= i < |form| ==> form[i] == form[1..][i - 1];
          Some([id] + rest)
  }

  /** In particular every id sqlite can store survives the round trip. */
  lemma ParseShowRoundTripInt64(n: int)
    requires MinInt64 <= n <= MaxInt64
    ensures ParseInt(Show(n)) == Some(n)
  {
    assert Pow10(4) == 10_000;
    assert Pow10(8) == 10_000 * Pow10(4);
    assert Pow10(19) == 10_000_000_000_000_000_000;
    DigitsLength(if n < 0 then -n else n, 19);
    ParseShowRoundTrip(n);
  }

  /** `x` is an integer that sqlite can bind as a 64-bit parameter. */
  predicate FitsInt64(x: string)
  {
    ParseInt(x).Some? && MinInt64 <= ParseInt(x).value <= MaxInt64
  }

  /** Every submitted id converts. */
  predicate AllParse(form: seq<string>)
  {
    forall i :: 0 <= i < |form| ==> ParseInt(form[i]).Some?
  }

  /** Every submitted id converts to an integer sqlite can bind. */
  predicate AllFit(form: seq<string>)
  {
    forall i :: 0 <= i < |form| ==> FitsInt64(form[i])
  }

  /** Some submitted string converts to `id`. */
  predicate Submitted(form: seq<string>, id: int)
  {
    exists i :: 0 <= i < |form| && ParseInt(form[i]) == Some(id)
  }

  const BadDeleteMessage: string := "Error during suppression: bad request."

  /**
   * The `delete` handler. Every submitted id is converted first; if one does
   * not convert the request is refused with a message. Otherwise the ids go
   * to `delete_comment`; if binding or SQLite fails there, the error reaches
   * Flask uncaught. Only when both steps succeed are the matching rows
   * deleted and the browser sent back to the listing.
   */
  function Delete(form: seq<string>, table: seq<Comment>, accepts: (string, seq<int>) -> bool): (r: (Response, seq<Comment>))
    ensures !AllParse(form) ==> r == (Body(BadDeleteMessage), table)
    ensures AllParse(form) && !AllFit(form) ==> r == (ServerError, table)
    ensures AllFit(form) && !accepts(DeleteStatement(ParseIds(form).value), ParseIds(form).value) ==>
      r == (ServerError, table)
    ensures AllFit(form) && accepts(DeleteStatement(ParseIds(form).value), ParseIds(form).value) ==>
      r.0 == Redirect("moderation")
    ensures AllFit(form) && accepts(DeleteStatement(ParseIds(form).value), ParseIds(form).value) ==>
      forall c :: c in r.1 <==> c in table && !Submitted(form, c.id)
    ensures AllFit(form) && accepts(DeleteStatement(ParseIds(form).value), ParseIds(form).value) ==>
      forall c :: multiset(r.1)[c] == if Submitted(form, c.id) then 0 else multiset(table)[c]
  {
    match ParseIds(form)
    case None => (Body(BadDeleteMessage), table)
    case Some(ids) =>
      assert AllFitInt64(ids) <==> forall i :: 0 <= i < |form| ==> FitsInt64(form[i]);
      match DeleteComment(table, ids, accepts)
      case None => (ServerError, table)
      case Some(effect) =>
        assert forall c: Comment :: c.id in ids <==> Submitted(form, c.id);
        (Redirect("moderation"), effect.table)
  }
}

=== FILE: rows.dfy ===
/**
 * Row values and `dict_factory` (app.py lines 42-48), which turns a fetched
 * tuple into a dict keyed by the cursor's column names.
 */
module Rows {

  /** A SQLite column value as the handlers see it. */
  datatype Value = Null | Int(i: int) | Text(s: string)

  /** A fetched row after `dict_factory`: column name to value. */
  type Row = map<string, Value>

  /** Position `i` is the last column carrying its name. */
  predicate LastOccurrence(names: seq<string>, i: int)
    requires 0 <= i < |names|
  {
    names[i] !in names[i + 1..]
  }

  /**
   * `dict_factory(cursor, row)`: `description` holds the column names
   * (`col[0]` of each cursor description entry). Names are stored in column
   * order, so when two columns share a name the later one wins. The loop
   * indexes `row` at every description position, so the row must be at least
   * as long.
   */
  function DictFactory(description: seq<string>, row: seq<Value>): (d: Row)
    requires |description| <= |row|
    ensures forall k :: k in d <==> k in description
    ensures forall i :: 0 <= i < |description| && LastOccurrence(description, i) ==> d[description[i]] == row[i]
    decreases |description|
  {
    if |description| == 0 then map[]
    else
      var n := |description| - 1;
      var earlier := DictFactory(description[..n], row);
      DictFactoryStep(description, row, earlier);
      earlier[description[n] := row[n]]
  }

  /** Storing the last column on top of the dict built from the others keeps both properties. */
  lemma DictFactoryStep(description: seq<string>, row: seq<Value>, earlier: Row)
    requires 0 < |description| <= |row|
    requires forall k :: k in earlier <==> k in description[..|description| - 1]
    requires forall i :: 0 <= i < |description| - 1 && LastOccurrence(description[..|description| - 1], i) ==>
      earlier[description[..|description| - 1][i]] == row[i]
    ensures var n := |description| - 1; var d := earlier[description[n] := row[n]];
      (forall k :: k in d <==> k in description) &&
      (forall i :: 0 <= i < |description| && LastOccurrence(description, i) ==> d[description[i]] == row[i])
  {
  }
}

=== FILE: sorting.dfy ===
/**
 * Python's `sorted(xs, key=k, reverse=True)`: a stable sort on a key,
 * largest key first, keeping the input order among equal keys.
 */
module Sorting {

  /** Keys never increase along `s`. */
  predicate Descending<T>(s: seq<T>, key: T -> int)
  {
    forall i, j :: 0 <= i < j < |s| ==> key(s[i]) >= key(s[j])
  }

  /** The elements of `s` whose key is `k`, in their order in `s`. */
  function WithKey<T>(s: seq<T>, key: T -> int, k: int): seq<T>
  {
    if |s| == 0 then []
    else (if key(s[0]) == k then [s[0]] else []) + WithKey(s[1..], key, k)
  }

  /**
   * `s` is `input` sorted newest-first and stably: descending by key, and for
   * every key the elements carrying it appear in `s` in the same order as in
   * `input`.
   */
  ghost predicate StableDescendingOf<T>(input: seq<T>, s: seq<T>, key: T -> int)
  {
    Descending(s, key) && forall k :: WithKey(s, key, k) == WithKey(input, key, k)
  }

  /** Put `x` in front of the first element whose key is not larger. */
  function Insert<T>(x: T, s: seq<T>, key: T -> int): seq<T>
  {
    if |s| == 0 || key(s[0]) <= key(x) then [x] + s
    else [s[0]] + Insert(x, s[1..], key)
  }

  function SortDesc<T>(s: seq<T>, key: T -> int): seq<T>
  {
    if |s| == 0 then [] else Insert(s[0], SortDesc(s[1..], key), key)
  }

  lemma {:induction false} InsertPermutes<T>(x: T, s: seq<T>, key: T -> int)
    ensures multiset(Insert(x, s, key)) == multiset(s) + multiset{x}
    decreases |s|
  {
    if |s| > 0 && key(s[0]) > key(x) {
      InsertPermutes(x, s[1..], key);
      assert s == [s[0]] + s[1..];
    }
  }

  /** No element of `s` has a key above `bound`. */
  predicate KeysAtMost<T>(s: seq<T>, key: T -> int, bound: int)
  {
    forall i :: 0 <= i < |s| ==> key(s[i]) <= bound
  }

  lemma {:induction false} InsertKeysAtMost<T>(x: T, s: seq<T>, key: T -> int, bound: int)
    requires KeysAtMost(s, key, bound) && key(x) <= bound
    ensures KeysAtMost(Insert(x, s, key), key, bound)
    decreases |s|
  {
    if |s| > 0 && key(s[0]) > key(x) {
      InsertKeysAtMost(x, s[1..], key, bound);
    }
  }

  lemma {:induction false} InsertDescending<T>(x: T, s: seq<T>, key: T -> int)
    requires Descending(s, key)
    ensures Descending(Insert(x, s, key), key)
    decreases |s|
  {
    if |s| > 0 && key(s[0]) > key(x) {
      var t := Insert(x, s[1..], key);
      InsertDescending(x, s[1..], key);
      InsertKeysAtMost(x, s[1..], key, key(s[0]));
      var r := [s[0]] + t;
      forall i, j | 0 <= i < j < |r|
        ensures key(r[i]) >= key(r[j])
      {
        if i > 0 {
          assert r[i] == t[i - 1] && r[j] == t[j - 1];
        } else {
          assert r[j] == t[j - 1];
        }
      }
    }
  }

  lemma {:induction false} InsertWithKey<T>(x: T, s: seq<T>, key: T -> int, k: int)
    requires Descending(s, key)
    ensures WithKey(Insert(x, s, key), key, k) == (if key(x) == k then [x] else []) + WithKey(s, key, k)
    decreases |s|
  {
    var r := Insert(x, s, key);
    if |s| == 0 || key(s[0]) <= key(x) {
      assert r[1..] == s;
    } else {
      var t := Insert(x, s[1..], key);
      InsertWithKey(x, s[1..], key, k);
      assert r[1..] == t;
      assert WithKey(r, key, k) == (if key(s[0]) == k then [s[0]] else []) + WithKey(t, key, k);
      assert WithKey(s, key, k) == (if key(s[0]) == k then [s[0]] else []) + WithKey(s[1..], key, k);
    }
  }

  /** The sort orders descending, permutes its input, and keeps the order among equal keys. */
  lemma {:induction false} SortDescIsStable<T>(s: seq<T>, key: T -> int)
    ensures StableDescendingOf(s, SortDesc(s, key), key)
    ensures multiset(SortDesc(s, key)) == multiset(s)
    ensures |SortDesc(s, key)| == |s|
    decreases |s|
  {
    SortDescPermutes(s, key);
    if |s| > 0 {
      SortDescIsStable(s[1..], key);
      InsertDescending(s[0], SortDesc(s[1..], key), key);
      forall k
        ensures WithKey(SortDesc(s, key), key, k) == WithKey(s, key, k)
      {
        InsertWithKey(s[0], SortDesc(s[1..], key), key, k);
      }
    }
  }

  lemma {:induction false} SortDescPermutes<T>(s: seq<T>, key: T -> int)
    ensures multiset(SortDesc(s, key)) == multiset(s)
    ensures |SortDesc(s, key)| == |s|
    decreases |s|
  {
    if |s| > 0 {
      SortDescPermutes(s[1..], key);
      InsertPermutes(s[0], SortDesc(s[1..], key), key);
      assert s == [s[0]] + s[1..];
      assert multiset(s) == multiset{s[0]} + multiset(s[1..]);
      assert |SortDesc(s, key)| == |multiset(SortDesc(s, key))|;
    }
  }

  lemma {:induction false} WithKeyMembers<T>(s: seq<T>, key: T -> int, k: int, x: T)
    requires x in WithKey(s, key, k)
    ensures x in s && key(x) == k
    decreases |s|
  {
    if |s| > 0 {
      if x != s[0] || key(s[0]) != k {
        WithKeyMembers(s[1..], key, k, x);
      }
    }
  }

  lemma WithKeyHead<T>(s: seq<T>, key: T -> int)
    ensures |s| > 0 ==> |WithKey(s, key, key(s[0]))| > 0
  {
  }

  lemma DescendingHead<T>(s: seq<T>, key: T -> int, x: T)
    requires Descending(s, key) && x in s
    ensures key(x) <= key(s[0])
  {
  }

  /** Two stable descending orders of the same elements coincide. */
  lemma {:induction false} StableDescendingUnique<T>(a: seq<T>, b: seq<T>, key: T -> int)
    requires Descending(a, key) && Descending(b, key)
    requires forall k :: WithKey(a, key, k) == WithKey(b, key, k)
    ensures a == b
    decreases |a| + |b|
  {
    if |a| > 0 && |b| > 0 {
      var ka, kb := key(a[0]), key(b[0]);
      assert WithKey(a, key, ka)[0] == a[0];
      WithKeyMembers(b, key, ka, a[0]);
      DescendingHead(b, key, a[0]);
      assert WithKey(b, key, kb)[0] == b[0];
      WithKeyMembers(a, key, kb, b[0]);
      DescendingHead(a, key, b[0]);
      assert ka == kb;
      assert a[0] == b[0];
      forall k
        ensures WithKey(a[1..], key, k) == WithKey(b[1..], key, k)
      {
        var wa, wb := WithKey(a[1..], key, k), WithKey(b[1..], key, k);
        assert WithKey(a, key, k) == WithKey(b, key, k);
        if k == ka {
          assert WithKey(a, key, k) == [a[0]] + wa;
          assert WithKey(b, key, k) == [b[0]] + wb;
          assert wa == ([a[0]] + wa)[1..];
          assert wb == ([b[0]] + wb)[1..];
        } else {
          assert WithKey(a, key, k) == [] + wa;
          assert WithKey(b, key, k) == [] + wb;
          assert wa == [] + wa && wb == [] + wb;
        }
      }
      StableDescendingUnique(a[1..], b[1..], key);
      assert a == [a[0]] + a[1..] && b == [b[0]] + b[1..];
    } else {
      WithKeyHead(a, key);
      WithKeyHead(b, key);
    }
  }

  /** `SortDesc` is the one stable descending order of its input. */
  lemma SortDescIsTheStableOrder<T>(s: seq<T>, key: T -> int)
    ensures StableDescendingOf(s, SortDesc(s, key), key)
    ensures forall t :: StableDescendingOf(s, t, key) ==> t == SortDesc(s, key)
  {
    SortDescIsStable(s, key);
    forall t | StableDescendingOf(s, t, key)
      ensures t == SortDesc(s, key)
    {
      StableDescendingUnique(t, SortDesc(s, key), key);
    }
  }
}

=== FILE: strings.dfy ===
/** String and sequence helpers standing in for the Python built-ins the handlers use. */
module Strings {

  /** Python's `sep.join(parts)`, built left to right like the handlers build their text. */
  function Join(parts: seq<string>, sep: string): string
  {
    if |parts| == 0 then ""
    else if |parts| == 1 then parts[0]
    else Join(parts[..|parts| - 1], sep) + sep + parts[|parts| - 1]
  }

  /** Python's `s[:-n]` for a positive `n`: everything but the last `n` characters. */
  function DropLast(s: string, n: nat): (r: string)
    requires n > 0
    ensures |s| >= n ==> s == r + s[|s| - n..]
    ensures |s| < n ==> r == ""
  {
    if |s| >= n then s[..|s| - n] else ""
  }

  /** Number of occurrences of `c` in `s`. */
  function Count(s: string, c: char): nat
  {
    if |s| == 0 then 0
    else Count(s[..|s| - 1], c) + (if s[|s| - 1] == c then 1 else 0)
  }

  lemma {:induction false} CountConcat(a: string, b: string, c: char)
    ensures Count(a + b, c) == Count(a, c) + Count(b, c)
    decreases |b|
  {
    if |b| == 0 {
      assert a + b == a;
    } else {
      var n := |b| - 1;
      assert (a + b)[..|a + b| - 1] == a + b[..n];
      CountConcat(a, b[..n], c);
    }
  }

  lemma {:induction false} CountAbsent(s: string, c: char)
    requires c !in s
    ensures Count(s, c) == 0
    decreases |s|
  {
    if |s| > 0 {
      CountAbsent(s[..|s| - 1], c);
    }
  }

  /** ASCII upper-case letters. */
  predicate IsUpper(c: char)
  {
    'A' <= c <= 'Z'
  }

  function LowerChar(c: char): char
  {
    if IsUpper(c) then (c as int - 'A' as int + 'a' as int) as char else c
  }

  /** Python's `str.lower()`, restricted to the ASCII letters. */
  function Lower(s: string): (r: string)
  {
    seq(|s|, i requires 0 <= i < |s| => LowerChar(s[i]))
  }

  /** A lowered string has the same length, no upper-case letter, and lowering it again changes nothing. */
  lemma LowerIsNormalForm(s: string)
    ensures |Lower(s)| == |s|
    ensures forall i :: 0 <= i < |s| ==> !IsUpper(Lower(s)[i])
    ensures Lower(Lower(s)) == Lower(s)
  {
  }

  /**
   * `a` is a subsequence of `b`: `a` can be obtained from `b` by deleting elements,
   * keeping the order of the rest.
   */
  predicate Subsequence<T(==)>(a: seq<T>, b: seq<T>)
    decreases |b|
  {
    |a| == 0 ||
    (|b| > 0 &&
     ((a[|a| - 1] == b[|b| - 1] && Subsequence(a[..|a| - 1], b[..|b| - 1])) ||
      Subsequence(a, b[..|b| - 1])))
  }

  /**
   * One more element `x` on the longer side: appended to the shorter side
   * when it is new there, skipped otherwise.
   */
  lemma SubsequenceStep<T>(a: seq<T>, b: seq<T>, x: T, a': seq<T>, b': seq<T>)
    requires Subsequence(a, b)
    requires b' == b + [x]
    requires a' == if x in a then a else a + [x]
    ensures Subsequence(a', b')
  {
    assert b'[..|b|] == b;
    if x !in a {
      assert a'[..|a|] == a;
    }
  }
}

=== FILE: wrappers.dfy ===
/** Failure-carrying datatypes shared by the other modules. */
module Wrappers {

  /** An optional value: Python's `None` versus a present value. */
  datatype Option<+T> = None | Some(value: T)
}
